=== FILE: README.md ===
# Quiz application core in Dafny

A verified model of the sequential core of the timed multiple-choice quiz in
`QuizApp.py`. The model covers two parts.

- **The question-bank parser** (`Quiz.load_questions_from_file`). It is a fold
  over the file's lines with two mode flags and the `QuizQuestion` being
  filled in, followed by `random.shuffle`. Lines are stripped. Blank lines and
  `*` comments are skipped. `@Q` creates a fresh question, `@A` switches to
  answers, and `@E` appends the current question to the list. In question mode
  a line is added to the text with one trailing space. In answer mode an
  all-digit line sets the correct index to its value minus one, and any other
  line becomes an option.
- **The quiz session** (`ask_question`, `handle_answer`, `finish_quiz`, the
  timer thread's tail, `start_quiz` and `start_new_quiz`). Its state is
  `asked_questions`, `correct_answers`, `current_question_index` and
  `time_is_up`. Each Tk callback, and the timer thread's tail, is one atomic
  transition of an immutable `Session`.

Files:

- `wrappers.dfy`: `Option`.
- `pytext.dfy` (module `PyText`): `str.strip`, `str.startswith`,
  `str.isdigit`, `int` and `str` on decimal digits.
- `shuffle.dfy` (module `Shuffle`): CPython's `random.shuffle` pass. The
  random source is a parameter: `draws[i]` is the value `randbelow(i + 1)`
  returned at position `i`.
- `question_bank.dfy` (module `QuestionBank`): the parser.
- `quiz_session.dfy` (module `QuizSession`): the session state machine.

The model follows the code as written.

- **Python reference semantics.** The list holds references, and the parser
  keeps mutating `current_question` after `@E` has appended it, until the
  next `@Q`. The parser state therefore keeps every `QuizQuestion` created
  (`objects`) and the list as references into them (`list`). Text after `@E`
  with no new `@Q` still lands in the question already appended
  (`LineAfterEnd`, `AliasedAfterEnd`).
- **Malformed blocks are not rejected.** A block with no digit line keeps
  index -1. Nothing checks the index against the options. Text after a
  marker on the same line is dropped (`MarkerTextDropped`). An `@E` before
  any `@Q` appends `None` (`EndWithoutQuestion`, `EndBeforeQuestion`). A
  content line before any `@Q` raises inside the loop
  (`ContentWithoutQuestion`, `AnswerBeforeQuestion`). The shuffle then never
  runs, and the list keeps what was appended so far (`Load`).
- **Numbers cannot be answer options.** Every all-digit line in answer mode
  is read as the key, and the last one wins (`NumericOptionsAreKeys`). One
  longer than 4300 digits makes `int` raise under the interpreters that limit
  integer string conversion (Python 3.11 on), and the load raises
  (`LongKeyRaises`).
- **`@Q` does not reset answer mode.** It leaves the answer flag unchanged.
  The question-mode test comes first, so text still goes to the question.
- **The clamped question count is never used.** `start_quiz` ignores it. Any
  two non-zero counts start the same session (`CountIgnored`). A session runs
  until every question in the list was asked or time is up.
- **Late answers still count.** `handle_answer` has no termination guard. An
  answer submitted after the timer finished the quiz is scored and finishes
  the quiz a second time (`LateAnswerCounts`, `FinalAnswerRace`). An
  unanswered submit sends -1, so it counts as correct on a question whose
  index stayed -1 (`HandleAnswer`'s contract).
- **Exceptions in callbacks.** Tk reports an exception raised in a callback
  and keeps the application's state. Faults are therefore recorded next to
  the state (`Reaction`, `Trace`). An empty list raises at the first
  `self.questions[...]`, and a `None` entry raises when its text is read.
- **"Start New Quiz" stays live during a session.** A start whose prompt is
  cancelled, or whose load raises, replaces the list but keeps the counters
  and the index, which may then lie past the end of the new list
  (`CancelledStartBreaksInv`). The list is still never read past its end
  except by the first ask of a start on a file with no `@E` line, because
  `handle_answer` asks only while answers < length
  (`IndexErrorOnlyOnEmptyStart`).

## Model

| member | source | states |
|---|---|---|
| PyText.Strip | QuizApp.py:49 | the stripped line has no whitespace at either end and is no longer than the line |
| PyText.StripSlice | QuizApp.py:49 | the stripped line is a contiguous slice of the line, with only whitespace before and after it |
| PyText.StripMargins | QuizApp.py:49 | whitespace around a trimmed non-empty core is exactly what stripping removes |
| PyText.StripTrailingSpace | QuizApp.py:41-49 | a trailing whitespace character, such as the newline `readlines` keeps on each line, does not change the stripped line |
| PyText.DigitsValueShowNat | QuizApp.py:71-72 | `int` of the decimal spelling of n is n, so a digit line `k` reads back as the value k |
| Shuffle.ShuffleDownPermutes | QuizApp.py:76 | each Fisher-Yates swap pass keeps the multiset of entries |
| Shuffle.Shuffle | QuizApp.py:76 | the shuffled list is a permutation of the parsed list, whatever the random draws |
| Shuffle.ShuffleDownFrame | QuizApp.py:76 | the pass down from position i never touches a position above i |
| Shuffle.ShuffleLast | QuizApp.py:76 | the last position of the shuffled list holds the entry the first draw picked |
| QuestionBank.Classify | QuizApp.py:49-66 | a stripped line is a skip exactly when blank or `*`; otherwise it opens a question exactly when it starts with `@Q`, switches to answers exactly when it starts with `@A`, and appends exactly when it starts with `@E`; content exactly when it is neither skipped nor a marker |
| QuestionBank.MarkerTextDropped | QuizApp.py:53-56 | the rest of a marker line is dropped: the file `@Q What is 2+2?` opens an empty question |
| QuestionBank.Step | QuizApp.py:48-74 | one loop iteration appends one entry exactly on an `@E` line, edits only the current question, keeps every reference valid, and does nothing once the loop has raised |
| QuestionBank.Fold | QuizApp.py:48-74 | the loop keeps every reference valid, only ever appends to the list, and once it has raised stops for good, leaving the state as it was |
| QuestionBank.StepStrip | QuizApp.py:48-49 | a loop iteration depends on the raw line only through its stripped form |
| QuestionBank.FoldSameStrip | QuizApp.py:48-74 | the whole loop gives the same result on two files whose lines strip alike, line by line |
| QuestionBank.Resolve | QuizApp.py:63-65 | an entry of the final list is `None` exactly when it holds the null reference that an `@E` before any `@Q` appends |
| QuestionBank.Load | QuizApp.py:43-76 | the load raises exactly when the loop raises, leaving the partial list unshuffled; otherwise the list is a permutation of the parsed entries with one entry per `@E` line |
| QuestionBank.EndCount | QuizApp.py:63-66 | when the loop does not raise, the number of entries equals the number of lines whose stripped form starts with `@E` |
| QuestionBank.SkippedLineIgnored | QuizApp.py:49-51 | inserting or removing one blank or comment line anywhere leaves the parse unchanged |
| QuestionBank.FoldContent | QuizApp.py:49-51 | removing every blank and comment line leaves the parse unchanged |
| QuestionBank.KeyOf | QuizApp.py:55 | a run of answer lines with no all-digit line leaves the correct index at its previous value (-1 for a fresh question) |
| QuestionBank.KeyOfLastWins | QuizApp.py:70-72 | the last all-digit answer line sets the correct index to its value minus one, whatever came before |
| QuestionBank.QuestionPhase | QuizApp.py:68-69 | in question mode the text grows by each stripped content line followed by exactly one space, in order |
| QuestionBank.AnswerPhase | QuizApp.py:70-74 | in answer mode, with every digit line within `int`'s 4300-digit limit, the options grow by each stripped non-digit content line in order, and the index becomes the last digit line's value minus one |
| QuestionBank.LongKeyRaises | QuizApp.py:70-72 | an all-digit answer line longer than 4300 digits makes the loop raise, and nothing after it is appended |
| QuestionBank.BlockParse | QuizApp.py:53-74 | a `@Q`/`@A`/`@E` block without stray markers and with every key within 4300 digits (marker lines written bare), read from any state that has not raised, appends exactly one new question built from its lines and leaves both modes off |
| QuestionBank.BankParse | QuizApp.py:43-74 | any file whose lines strip to those of a sequence of such blocks, whatever whitespace and line terminators surround them, parses to the blocks' questions in file order, each appended once |
| QuestionBank.ReadLinesBank | QuizApp.py:41-74 | the lines `readlines` returns for such a bank, each ending in a newline, parse to the blocks' questions |
| QuestionBank.LoadBank | QuizApp.py:43-76 | loading any file whose lines strip to such a bank never raises and yields a permutation of the blocks' questions |
| QuestionBank.LineAfterEnd | QuizApp.py:63-69 | in question mode, a content line read after `@E` with no new `@Q` edits the question the list already refers to, so the appended entry resolves to the edited question |
| QuestionBank.AliasedAfterEnd | QuizApp.py:63-69 | the file `@Q`, `a`, `@E`, `b` resolves to one question with text `a b ` |
| QuestionBank.EndWithoutQuestion | QuizApp.py:63-65 | an `@E` line read while no `@Q` has been read appends `None` and leaves the earlier entries as they were |
| QuestionBank.EndBeforeQuestion | QuizApp.py:63-65 | the file `@E` resolves to `[None]` |
| QuestionBank.ContentWithoutQuestion | QuizApp.py:67-74 | a content line in question or answer mode while no `@Q` has been read makes the loop raise, appending nothing |
| QuestionBank.AnswerBeforeQuestion | QuizApp.py:58-74 | the file `@A`, `x` makes the loop raise |
| QuestionBank.NumericOptionsAreKeys | QuizApp.py:70-74 | numeric answer lines become the key, not options: the block's last digit line wins and no options remain |
| QuizSession.Accuracy | QuizApp.py:137-140 | accuracy is 0 when nothing was asked, and otherwise accuracy times asked equals 100 times correct |
| QuizSession.AccuracyBounds | QuizApp.py:137-140 | with correct <= asked, accuracy lies in [0, 100]; it is 100 exactly when all asked were correct and 0 exactly when none were |
| QuizSession.Finish | QuizApp.py:135-144 | finishing sets time-up and emits one report of the current counters with accuracy `Accuracy(asked, correct)`, which lies in [0, 100] whenever correct <= asked; counters, list and dialogs are unchanged |
| QuizSession.Expire | QuizApp.py:84-86 | the timer's tail leaves time-up set, and emits a report exactly when time was not already up |
| QuizSession.ExpireOnce | QuizApp.py:84-86 | the timer's tail after a finish, or after itself, changes nothing |
| QuizSession.Ask | QuizApp.py:88-93 | reading past the end raises and changes nothing; otherwise the index steps by one and the entry's dialog opens, unless the entry is `None`, which raises |
| QuizSession.HandleAnswer | QuizApp.py:118-125 | an answer adds exactly 1 to asked, adds 1 to correct exactly when the selection equals the key, and finishes exactly when time was up or no question is left |
| QuizSession.Submit | QuizApp.py:110-112 | submitting an open dialog scores against that dialog's question |
| QuizSession.Restart | QuizApp.py:164-170 | after the reset, the counters are 0, time is not up and the index is 1 unless the list is empty; the first ask raises IndexError exactly when the list is empty, raises AttributeError exactly when its first entry is `None`, and otherwise puts the first question on screen |
| QuizSession.StartNewQuiz | QuizApp.py:146-170 | a cancelled file dialog changes nothing; a chosen file replaces the list even if a prompt is cancelled; a raising load leaves the partial list; a load that does not raise gives one entry per `@E` line; a started quiz has reset counters and index 1 (0 on an empty list), raises IndexError exactly when the file has no `@E` line, raises AttributeError exactly when the shuffled list starts with `None`, and otherwise raises nothing |
| QuizSession.CountIgnored | QuizApp.py:161-170 | any two non-zero question counts start the same session |
| QuizSession.Apply | QuizApp.py:110-170 | a dialog or timer event keeps the list and adds at most 1 to asked and at most 1 to correct, and correct only together with asked; a "Start New Quiz" press either keeps counters, index and flag or resets the counters with index at most 1, and raises IndexError exactly when its file has no `@E` line and both prompts were answered |
| QuizSession.CountersOrdered | QuizApp.py:118-164 | over any run of events correct <= asked is kept; with no new start pressed the counters never decrease |
| QuizSession.RestartInv | QuizApp.py:127-133 | starting on a non-empty list establishes the session invariant and does not read past the end, whatever dialogs are still open |
| QuizSession.RestartReady | QuizApp.py:127-133 | a fresh start (a list without `None`, no dialog open) raises nothing and puts exactly the first question on screen |
| QuizSession.StaleDialogSurvives | QuizApp.py:84-133 | a dialog left open when time ran out survives a restart, so the new session has two dialogs open and the invariant still holds |
| QuizSession.ApplyInv | QuizApp.py:88-125 | every dialog or timer event, including an answer from a stale dialog, keeps the invariant (index == asked + 1 while time is not up, index <= list length), so the read of the list never goes past the end |
| QuizSession.ApplyReady | QuizApp.py:88-125 | on a list without `None` and with no stale dialog, every dialog or timer event keeps the stronger invariant and raises nothing |
| QuizSession.RunInv | QuizApp.py:88-125 | over any run of dialog and timer events the invariant holds and no read of the list goes past the end |
| QuizSession.RunReady | QuizApp.py:88-125 | over any run of dialog and timer events on a list without `None` and with no stale dialog, nothing is raised |
| QuizSession.NoReadPastEnd | QuizApp.py:88-170 | after a start on a non-empty list, however many dialogs are open, the invariant holds until a new start is pressed; over any run, starts included, the list is read past its end exactly when some start has a file with no `@E` line |
| QuizSession.CancelledPrompt | QuizApp.py:150-159 | a start whose count prompt is cancelled replaces the list with the loaded one (a permutation of the parsed entries, one per `@E` line), raises nothing, and changes nothing else |
| QuizSession.CancelledStartBreaksInv | QuizApp.py:150-159 | a cancelled prompt can leave the index past the end of the new, shorter list, so the session invariant does not survive a start |
| QuizSession.BoundedFrom | QuizApp.py:20-27 | the weaker bound (index at most one past the answers while time is not up) holds at launch and follows from the session invariant |
| QuizSession.ApplyBounded | QuizApp.py:88-170 | every event, starts included, keeps the weaker bound, and reads past the end of the list exactly when it is a start on a file with no `@E` line whose prompts were answered |
| QuizSession.RunBounded | QuizApp.py:88-170 | over any run of events, starts included, the bound holds and an IndexError is raised exactly when some start of the run has a file with no `@E` line |
| QuizSession.IndexErrorOnlyOnEmptyStart | QuizApp.py:20-170 | from launch, whatever is pressed and whenever timers fire, the only IndexError is the first ask of a start on a file with no `@E` line |
| QuizSession.NormalCompletion | QuizApp.py:118-125 | answering every remaining question before time is up finishes exactly once with every question asked, and the timer's tail afterwards changes nothing |
| QuizSession.EarlyExpiry | QuizApp.py:84-86 | time running out with questions left finishes with fewer answers than questions, with the current dialog still open |
| QuizSession.LateAnswerCounts | QuizApp.py:118-125 | an answer submitted after time is up is still scored and emits another report |
| QuizSession.FinalAnswerRace | QuizApp.py:84-125 | last answer then timer gives one report; timer then last answer gives two |

## Left out

- The tkinter GUI is not modelled (QuizApp.py:30-37, 95-116, 141-142, 147-159, 172-191). This covers window setup, radio buttons, message boxes, the log viewer and the prompts. What matters is kept: an open dialog with its Submit button, the radio value (-1 when nothing is chosen), and the integer prompts' results.
- File reading and log writing are not modelled (QuizApp.py:9-10, 40-41, 143-144, 187-188). The parser takes the file's lines. A report stands for the shown and logged summary.
- The timer thread, `time.time()` and `time.sleep` polling are not modelled (QuizApp.py:78-83, 129-130). The thread's tail is the atomic `TimeUp` event, which may occur at any point of a run. The loop's early exit (line 81) only decides when that tail runs.
- Interleavings inside a callback are not modelled. The model cannot show the timer's tail running between `handle_answer`'s increment and its `finish_quiz`, which could finish the quiz twice.
- How many timer threads are running is not tracked. A second `start_new_quiz` while a session is running leaves the old timer thread running. Each `TimeUp` event is the tail of some timer thread and may occur at any point of a run. Starts pressed mid-session are modelled as `NewQuiz` events.
- Closing a question dialog without submitting is not modelled as an event. It calls nothing, so the session waits for the timer.
- `random.shuffle`'s randomness is not modelled: the draws are a parameter.
- Floating point and the `:.2f` formatting are not modelled. Accuracy is an exact rational.
- `str.strip`, `str.isdigit` and `int` are ASCII only. The 4300-digit limit of `int` is modelled; interpreters older than Python 3.11 and the 3.7.14, 3.8.14, 3.9.14 and 3.10.7 security releases have no such limit, and `sys.set_int_max_str_digits` can change it. Python also strips non-ASCII whitespace. `isdigit` also accepts other Unicode decimal digits, such as fullwidth or Arabic-Indic ones, which `int` reads as their value. It also accepts digits such as superscripts, for which `int` raises.
- Shuffle.Shuffle: states only that the result is a permutation of its input. It does not state that every permutation is reachable.
- QuizSession.Apply: a Submit on a dialog that is not open, or with a radio value that no button has, changes nothing, because no such control exists to click. A start whose draws `random.shuffle` could not produce for the loaded list also changes nothing.

=== FILE: pytext.dfy ===
/**
  The few Python string operations the question-bank parser relies on:
  `str.strip()`, `str.startswith`, `str.isdigit()` and `int()` on a digit
  string. Only ASCII is modelled: whitespace is the characters Python's
  `str.isspace()` accepts below 0x80, and digits are '0'..'9'.
 */
module PyText {

  /** Space, the controls \t \n \v \f \r, and the separators 0x1C..0x1F. */
  predicate IsSpace(c: char) {
    c == ' ' || ('\t' <= c <= '\r') || ('\U{1C}' <= c <= '\U{1F}')
  }

  predicate AllSpace(s: string) {
    forall i :: 0 <= i < |s| ==> IsSpace(s[i])
  }

  /** Neither end of `s` is whitespace. */
  predicate Trimmed(s: string) {
    s == [] || (!IsSpace(s[0]) && !IsSpace(s[|s| - 1]))
  }

  /** `s.lstrip()`: drop leading whitespace. */
  function StripLeft(s: string): (r: string)
    ensures |r| <= |s|
    ensures r == [] || !IsSpace(r[0])
  {
    if s != [] && IsSpace(s[0]) then StripLeft(s[1..]) else s
  }

  /** `s.rstrip()`: drop trailing whitespace. */
  function StripRight(s: string): (r: string)
    ensures |r| <= |s|
    ensures r == [] || !IsSpace(r[|r| - 1])
  {
    if s != [] && IsSpace(s[|s| - 1]) then StripRight(s[..|s| - 1]) else s
  }

  /** What `lstrip` keeps is a suffix, and what it drops is whitespace. */
  lemma {:induction false} StripLeftSuffix(s: string)
    ensures StripLeft(s) == s[|s| - |StripLeft(s)|..]
    ensures AllSpace(s[..|s| - |StripLeft(s)|])
  {
    if s != [] && IsSpace(s[0]) {
      StripLeftSuffix(s[1..]);
      assert s[..|s| - |StripLeft(s)|] == [s[0]] + s[1..][..|s| - 1 - |StripLeft(s)|];
    }
  }

  /** What `rstrip` keeps is a prefix, and what it drops is whitespace. */
  lemma {:induction false} StripRightPrefix(s: string)
    ensures StripRight(s) == s[..|StripRight(s)|]
    ensures AllSpace(s[|StripRight(s)|..])
  {
    if s != [] && IsSpace(s[|s| - 1]) {
      var init := s[..|s| - 1];
      StripRightPrefix(init);
      assert s[|StripRight(s)|..] == init[|StripRight(s)|..] + [s[|s| - 1]];
    }
  }

  /** `s.strip()`: what is left after removing whitespace at both ends. */
  function Strip(s: string): (r: string)
    ensures Trimmed(r)
    ensures |r| <= |s|
  {
    StripRightPrefix(StripLeft(s));
    StripRight(StripLeft(s))
  }

  /** The stripped string is a slice of the original with only whitespace around it. */
  lemma StripSlice(s: string)
    ensures exists i :: 0 <= i <= |s| - |Strip(s)| && Strip(s) == s[i..i + |Strip(s)|]
                        && AllSpace(s[..i]) && AllSpace(s[i + |Strip(s)|..])
  {
    var l := StripLeft(s);
    var r := StripRight(l);
    var i := |s| - |l|;
    StripLeftSuffix(s);
    StripRightPrefix(l);
    assert Strip(s) == r;
    assert l == s[i..];
    assert r == l[..|r|];
    assert l[..|r|] == s[i..i + |r|];
    assert s[i + |r|..] == l[|r|..];
    assert AllSpace(s[..i]) && AllSpace(s[i + |r|..]);
  }

  /** A trailing whitespace character, such as the line terminator `readlines`
      keeps, does not change what `strip` returns. */
  lemma {:induction false} StripTrailingSpace(s: string, c: char)
    requires IsSpace(c)
    ensures Strip(s + [c]) == Strip(s)
  {
    StripLeftAppend(s, c);
    var l := StripLeft(s);
    if l != [] {
      assert (l + [c])[..|l + [c]| - 1] == l;
    }
  }

  lemma {:induction false} StripLeftAppend(s: string, c: char)
    requires IsSpace(c)
    ensures StripLeft(s + [c]) == if StripLeft(s) == [] then [] else StripLeft(s) + [c]
  {
    if s == [] {
      assert StripLeft([c]) == StripLeft([]);
    } else {
      assert (s + [c])[0] == s[0];
      if IsSpace(s[0]) {
        assert (s + [c])[1..] == s[1..] + [c];
        StripLeftAppend(s[1..], c);
      }
    }
  }

  /** `s.startswith(p)`. */
  predicate StartsWith(s: string, p: string) {
    |p| <= |s| && s[..|p|] == p
  }

  predicate IsDigit(c: char) {
    '0' <= c <= '9'
  }

  /** `s.isdigit()`: non-empty and made of digits only. */
  predicate IsDigits(s: string) {
    |s| > 0 && forall i :: 0 <= i < |s| ==> IsDigit(s[i])
  }

  /** `int(s)` for a string of decimal digits (leading zeros allowed). */
  function DigitsValue(s: string): nat
    requires forall i :: 0 <= i < |s| ==> IsDigit(s[i])
  {
    if s == [] then 0
    else
      assert IsDigit(s[|s| - 1]);
      DigitsValue(s[..|s| - 1]) * 10 + (s[|s| - 1] as int - '0' as int)
  }

  /** The default of `sys.get_int_max_str_digits()` (Python 3.11 and the 3.7.14,
      3.8.14, 3.9.14 and 3.10.7 security releases): `int` raises ValueError on a
      decimal string with more digits than this. */
  const MaxStrDigits := 4300

  /** `str(n)` for a natural number: its shortest decimal spelling. */
  function ShowNat(n: nat): (r: string)
    ensures IsDigits(r)
    ensures r[0] == '0' ==> n == 0
  {
    var d := (n % 10 + '0' as int) as char;
    if n < 10 then [d] else ShowNat(n / 10) + [d]
  }

  /** Reading back the spelling of `n` gives `n`: `int(str(n)) == n`. */
  lemma {:induction false} DigitsValueShowNat(n: nat)
    ensures DigitsValue(ShowNat(n)) == n
  {
    var s := ShowNat(n);
    if n >= 10 {
      assert s[..|s| - 1] == ShowNat(n / 10);
      DigitsValueShowNat(n / 10);
    }
  }

  /** Stripping is idempotent, and a trimmed string is its own strip. */
  lemma StripTrimmed(s: string)
    requires Trimmed(s)
    ensures Strip(s) == s
  {
  }

  /** Whitespace margins around a trimmed core are exactly what `strip` removes. */
  lemma {:induction false} StripMargins(w1: string, m: string, w2: string)
    requires AllSpace(w1) && AllSpace(w2) && Trimmed(m) && m != []
    ensures Strip(w1 + m + w2) == m
  {
    assert w1 + m + w2 == w1 + (m + w2);
    StripLeftMargin(w1, m + w2);
    StripRightMargin(m, w2);
    assert Strip(w1 + m + w2) == StripRight(StripLeft(w1 + (m + w2)));
  }

  lemma {:induction false} StripLeftMargin(w: string, s: string)
    requires AllSpace(w) && s != [] && !IsSpace(s[0])
    ensures StripLeft(w + s) == s
  {
    if w != [] {
      assert (w + s)[1..] == w[1..] + s;
      StripLeftMargin(w[1..], s);
    }
  }

  lemma {:induction false} StripRightMargin(s: string, w: string)
    requires AllSpace(w) && s != [] && !IsSpace(s[|s| - 1])
    ensures StripRight(s + w) == s
  {
    if w != [] {
      assert (s + w)[..|s + w| - 1] == s + w[..|w| - 1];
      StripRightMargin(s, w[..|w| - 1]);
    }
  }
}

=== FILE: question_bank.dfy ===
/**
  The question-bank parser of `Quiz.load_questions_from_file`: a fold over the
  file's lines with two mode flags and the question being filled in, followed
  by `random.shuffle`.

  Python's reference semantics are kept. `self.questions` holds references,
  and the parser keeps mutating `current_question` after `@E` has appended
  it, until the next `@Q` creates a new object. The parser state therefore
  records every `QuizQuestion` object created (`objects`, the last being
  `current_question`) and the list as references into it (`list`: 0 stands
  for `None`, k >= 1 for `objects[k - 1]`); `Resolve` reads the list's final
  contents.
 */
module QuestionBank {

  import opened Wrappers
  import opened PyText
  import Shuffle

  /** `QuizQuestion`: the text, the answer options, and the 0-based index of the
      correct option. Nothing relates the index to the options. */
  datatype Question = Question(text: string, answers: seq<string>, correctIndex: int)

  /** `QuizQuestion("", [], -1)`, the object each `@Q` line creates. */
  const Fresh := Question("", [], -1)

  /** An entry of `self.questions`: `None` when `@E` came before any `@Q`. */
  type Slot = Option<Question>

  /** The loop's state. `failed` records that the loop raised: an attribute
      access on `current_question` while it is still `None`, or `int` on an
      all-digit answer line longer than `MaxStrDigits`. */
  datatype Parser = Parser(
    objects: seq<Question>,
    list: seq<nat>,
    readingQuestion: bool,
    readingAnswers: bool,
    failed: bool)

  /** Every reference in the list names an object that exists. */
  predicate Valid(p: Parser) {
    forall k :: 0 <= k < |p.list| ==> p.list[k] <= |p.objects|
  }

  /** The state before the first line: an empty list, no question, both modes off. */
  const Init := Parser([], [], false, false, false)

  /** A stripped line the loop skips: blank, or a `*` comment. */
  predicate IsSkipped(line: string) {
    line == [] || StartsWith(line, "*")
  }

  /** A stripped line the loop treats as a marker. */
  predicate IsMarker(line: string) {
    StartsWith(line, "@Q") || StartsWith(line, "@A") || StartsWith(line, "@E")
  }

  /** `current_question`, the object created last. */
  function Current(p: Parser): Question
    requires |p.objects| > 0
  {
    p.objects[|p.objects| - 1]
  }

  /** The state after mutating `current_question` into `q`. */
  function SetCurrent(p: Parser, q: Question): (r: Parser)
    requires |p.objects| > 0
    ensures |r.objects| == |p.objects| && Current(r) == q
    ensures forall k :: 0 <= k < |p.objects| - 1 ==> r.objects[k] == p.objects[k]
    ensures r.list == p.list && r.readingQuestion == p.readingQuestion
    ensures r.readingAnswers == p.readingAnswers && r.failed == p.failed
  {
    p.(objects := p.objects[..|p.objects| - 1] + [q])
  }

  /** How the loop's chain of tests reads one stripped line. */
  datatype LineKind = Skip | OpenQuestion | OpenAnswers | Close | Plain(line: string)

  /** The tests of the loop body in their order: blank or `*`, then `@Q`, `@A`, `@E`. */
  function Classify(raw: string): (k: LineKind)
    ensures k == Skip <==> IsSkipped(Strip(raw))
    ensures k == OpenQuestion <==> StartsWith(Strip(raw), "@Q")
    ensures k == OpenAnswers <==> StartsWith(Strip(raw), "@A")
    ensures k == Close <==> StartsWith(Strip(raw), "@E")
    ensures k.Plain? <==> !IsSkipped(Strip(raw)) && !IsMarker(Strip(raw))
    ensures k.Plain? ==> k.line == Strip(raw)
  {
    var line := Strip(raw);
    assert IsMarker(line) ==> line[0] == '@' by {
      if IsMarker(line) {
        assert line[0] == line[..2][0];
      }
    }
    if IsSkipped(line) then Skip
    else if StartsWith(line, "@Q") then OpenQuestion
    else if StartsWith(line, "@A") then OpenAnswers
    else if StartsWith(line, "@E") then Close
    else Plain(line)
  }

  /** One iteration of the loop, on the raw line as `readlines` returned it. */
  function Step(p: Parser, raw: string): (r: Parser)
    requires Valid(p)
    ensures Valid(r)
    ensures p.failed ==> r == p
    ensures p.list <= r.list
    ensures |r.list| == |p.list| + 1 <==> !p.failed && StartsWith(Strip(raw), "@E")
    ensures |r.list| <= |p.list| + 1
    ensures |p.objects| <= |r.objects| <= |p.objects| + 1
    ensures forall k :: 0 <= k < |p.objects| - 1 ==> r.objects[k] == p.objects[k]
  {
    if p.failed then p
    else
      match Classify(raw)
      case Skip => p
      case OpenQuestion => p.(readingQuestion := true, objects := p.objects + [Fresh])
      case OpenAnswers => p.(readingQuestion := false, readingAnswers := true)
      case Close => p.(readingAnswers := false, list := p.list + [|p.objects|])
      case Plain(line) =>
        if !p.readingQuestion && !p.readingAnswers then p
        else if |p.objects| == 0 then p.(failed := true)
        else if p.readingQuestion then
          SetCurrent(p, Current(p).(text := Current(p).text + line + " "))
        else if IsDigits(line) then
          if |line| > MaxStrDigits then p.(failed := true)
          else SetCurrent(p, Current(p).(correctIndex := DigitsValue(line) - 1))
        else
          SetCurrent(p, Current(p).(answers := Current(p).answers + [line]))
  }

  /** The loop over `lines`, stopping for good once it has raised. References
      stay valid and the list only ever grows at its end. */
  function Fold(p: Parser, lines: seq<string>): (r: Parser)
    requires Valid(p)
    ensures Valid(r)
    ensures p.failed ==> r == p
    ensures p.list <= r.list
    decreases lines
  {
    if lines == [] then p else Fold(Step(p, lines[0]), lines[1..])
  }

  function Parse(lines: seq<string>): Parser {
    Fold(Init, lines)
  }

  /** The final contents of `self.questions`. */
  function Resolve(p: Parser): (r: seq<Slot>)
    requires Valid(p)
    ensures |r| == |p.list|
    ensures forall k :: 0 <= k < |r| ==> (r[k].None? <==> p.list[k] == 0)
  {
    seq(|p.list|, k requires 0 <= k < |p.list| =>
      if p.list[k] == 0 then None else Some(p.objects[p.list[k] - 1]))
  }

  /** Lines whose stripped form starts with `@E`: one appended entry each. */
  function CountEnds(lines: seq<string>): nat {
    if lines == [] then 0
    else (if StartsWith(Strip(lines[0]), "@E") then 1 else 0) + CountEnds(lines[1..])
  }

  /** `self.questions` after `load_questions_from_file`, and whether it raised. */
  datatype Loaded = Loaded(questions: seq<Slot>, crashed: bool)

  /** Parse, then shuffle with the given draws. When the loop raises, the
      shuffle never runs and the list keeps what was appended so far. */
  function Load(lines: seq<string>, draws: seq<nat>): (r: Loaded)
    requires Shuffle.ValidDraws(draws, |Parse(lines).list|)
    ensures r.crashed == Parse(lines).failed
    ensures r.crashed ==> r.questions == Resolve(Parse(lines))
    ensures multiset(r.questions) == multiset(Resolve(Parse(lines)))
    ensures !r.crashed ==> |r.questions| == CountEnds(lines)
  {
    var p := Parse(lines);
    if p.failed then Loaded(Resolve(p), true)
    else
      EndCount(Init, lines);
      Loaded(Shuffle.Shuffle(Resolve(p), draws), false)
  }

  // ---------------------------------------------------------------------------
  // The fold

  lemma {:induction false} FoldAppend(p: Parser, xs: seq<string>, ys: seq<string>)
    requires Valid(p)
    ensures Fold(p, xs + ys) == Fold(Fold(p, xs), ys)
    decreases xs
  {
    if xs == [] {
      assert xs + ys == ys;
    } else {
      assert (xs + ys)[0] == xs[0];
      assert (xs + ys)[1..] == xs[1..] + ys;
      FoldAppend(Step(p, xs[0]), xs[1..], ys);
      assert Fold(p, xs) == Fold(Step(p, xs[0]), xs[1..]);
      assert Fold(p, xs + ys) == Fold(Step(p, xs[0]), xs[1..] + ys);
    }
  }

  lemma FoldSnoc(p: Parser, xs: seq<string>, line: string)
    requires Valid(p)
    ensures Fold(p, xs + [line]) == Step(Fold(p, xs), line)
  {
    FoldAppend(p, xs, [line]);
  }

  /** Two line sequences of equal length whose lines strip to the same text. */
  predicate SameStripped(xs: seq<string>, ys: seq<string>) {
    |xs| == |ys| && forall k :: 0 <= k < |xs| ==> Strip(xs[k]) == Strip(ys[k])
  }

  /** A loop iteration sees only the stripped line. */
  lemma StepStrip(p: Parser, a: string, b: string)
    requires Valid(p) && Strip(a) == Strip(b)
    ensures Step(p, a) == Step(p, b)
  {
  }

  /** So the loop gives the same result on lines that strip alike. */
  lemma {:induction false} FoldSameStrip(p: Parser, xs: seq<string>, ys: seq<string>)
    requires Valid(p) && SameStripped(xs, ys)
    ensures Fold(p, xs) == Fold(p, ys)
    decreases |xs|
  {
    if xs != [] {
      StepStrip(p, xs[0], ys[0]);
      assert SameStripped(xs[1..], ys[1..]) by {
        forall k | 0 <= k < |xs| - 1 ensures Strip(xs[1..][k]) == Strip(ys[1..][k]) {
          assert xs[1..][k] == xs[k + 1] && ys[1..][k] == ys[k + 1];
        }
      }
      FoldSameStrip(Step(p, xs[0]), xs[1..], ys[1..]);
    }
  }

  /** Each appended entry comes from one `@E` line, as long as the loop did not raise. */
  lemma {:induction false} EndCount(p: Parser, lines: seq<string>)
    requires Valid(p)
    requires !Fold(p, lines).failed
    ensures |Fold(p, lines).list| == |p.list| + CountEnds(lines)
    decreases lines
  {
    if lines != [] {
      EndCount(Step(p, lines[0]), lines[1..]);
    }
  }

  // ---------------------------------------------------------------------------
  // Blank and comment lines

  /** Removing one blank or comment line, anywhere, leaves the result unchanged. */
  lemma SkippedLineIgnored(p: Parser, xs: seq<string>, line: string, ys: seq<string>)
    requires Valid(p)
    requires IsSkipped(Strip(line))
    ensures Fold(p, xs + [line] + ys) == Fold(p, xs + ys)
  {
    FoldAppend(p, xs + [line], ys);
    FoldSnoc(p, xs, line);
    FoldAppend(p, xs, ys);
  }

  /** The lines that are neither blank nor comments, in order. */
  function Content(lines: seq<string>): (r: seq<string>)
    ensures |r| <= |lines|
    ensures forall k :: 0 <= k < |r| ==> !IsSkipped(Strip(r[k]))
  {
    if lines == [] then []
    else
      var rest := Content(lines[1..]);
      if IsSkipped(Strip(lines[0])) then rest
      else
        assert forall k :: 1 <= k < |rest| + 1 ==> ([lines[0]] + rest)[k] == rest[k - 1];
        [lines[0]] + rest
  }

  /** Removing every blank and comment line leaves the result unchanged. */
  lemma {:induction false} FoldContent(p: Parser, lines: seq<string>)
    requires Valid(p)
    ensures Fold(p, lines) == Fold(p, Content(lines))
    decreases lines
  {
    if lines != [] {
      FoldContent(Step(p, lines[0]), lines[1..]);
      if !IsSkipped(Strip(lines[0])) {
        var c := [lines[0]] + Content(lines[1..]);
        assert c[0] == lines[0] && c[1..] == Content(lines[1..]);
      }
    }
  }

  // ---------------------------------------------------------------------------
  // What one block produces

  /** The text a run of question-mode lines adds: each content line, stripped,
      followed by one space. */
  function TextOf(lines: seq<string>): string {
    if lines == [] then []
    else
      var t := Strip(lines[|lines| - 1]);
      TextOf(lines[..|lines| - 1]) + (if IsSkipped(t) then [] else t + " ")
  }

  /** The options a run of answer-mode lines adds: each content line that is not
      all digits, stripped, in order. */
  function AnswersOf(lines: seq<string>): seq<string> {
    if lines == [] then []
    else
      var t := Strip(lines[|lines| - 1]);
      AnswersOf(lines[..|lines| - 1]) + (if IsSkipped(t) || IsDigits(t) then [] else [t])
  }

  /** The correct index after a run of answer-mode lines: the last all-digit
      line's value minus one, or `d` when there is no such line. */
  function KeyOf(lines: seq<string>, d: int): (r: int)
    ensures (forall k :: 0 <= k < |lines| ==> !IsDigits(Strip(lines[k]))) ==> r == d
  {
    if lines == [] then d
    else
      var t := Strip(lines[|lines| - 1]);
      if IsDigits(t) then DigitsValue(t) - 1 else KeyOf(lines[..|lines| - 1], d)
  }

  /** The last all-digit line decides the key, whatever came before it. */
  lemma {:induction false} KeyOfLastWins(lines: seq<string>, d: int, k: nat)
    requires k < |lines| && IsDigits(Strip(lines[k]))
    requires forall j :: k < j < |lines| ==> !IsDigits(Strip(lines[j]))
    ensures KeyOf(lines, d) == DigitsValue(Strip(lines[k])) - 1
    decreases |lines|
  {
    if k < |lines| - 1 {
      var init := lines[..|lines| - 1];
      assert init[k] == lines[k];
      KeyOfLastWins(init, d, k);
    }
  }

  predicate MarkerFree(lines: seq<string>) {
    forall k :: 0 <= k < |lines| ==> !IsMarker(Strip(lines[k]))
  }

  /** No all-digit line is too long for `int`. */
  predicate KeysReadable(lines: seq<string>) {
    forall k :: 0 <= k < |lines| ==> IsDigits(Strip(lines[k])) ==> |Strip(lines[k])| <= MaxStrDigits
  }

  lemma SetCurrentTwice(p: Parser, q1: Question, q2: Question)
    requires |p.objects| > 0
    ensures SetCurrent(SetCurrent(p, q1), q2) == SetCurrent(p, q2)
  {
    assert SetCurrent(SetCurrent(p, q1), q2).objects == SetCurrent(p, q2).objects;
  }

  lemma SetCurrentSame(p: Parser)
    requires |p.objects| > 0
    ensures SetCurrent(p, Current(p)) == p
  {
    assert p.objects[..|p.objects| - 1] + [Current(p)] == p.objects;
  }

  /** One question-mode line: a content line extends the text, a skipped one does nothing. */
  lemma StepQuestionLine(p: Parser, raw: string)
    requires Valid(p) && !p.failed && p.readingQuestion && |p.objects| > 0
    requires !IsMarker(Strip(raw))
    ensures Step(p, raw) == if IsSkipped(Strip(raw)) then p
                            else SetCurrent(p, Current(p).(text := Current(p).text + Strip(raw) + " "))
  {
  }

  /** One answer-mode line: a digit line sets the key, unless `int` refuses it
      for its length and the loop raises; another content line adds an option. */
  lemma StepAnswerLine(p: Parser, raw: string)
    requires Valid(p) && !p.failed && !p.readingQuestion && p.readingAnswers && |p.objects| > 0
    requires !IsMarker(Strip(raw))
    ensures Step(p, raw) == if IsSkipped(Strip(raw)) then p
                            else if IsDigits(Strip(raw)) && |Strip(raw)| > MaxStrDigits
                            then p.(failed := true)
                            else if IsDigits(Strip(raw))
                            then SetCurrent(p, Current(p).(correctIndex := DigitsValue(Strip(raw)) - 1))
                            else SetCurrent(p, Current(p).(answers := Current(p).answers + [Strip(raw)]))
  {
  }

  lemma MarkerFreePrefix(lines: seq<string>)
    requires |lines| > 0 && MarkerFree(lines)
    ensures MarkerFree(lines[..|lines| - 1]) && !IsMarker(Strip(lines[|lines| - 1]))
  {
    var init := lines[..|lines| - 1];
    forall k | 0 <= k < |init| ensures !IsMarker(Strip(init[k])) {
      assert init[k] == lines[k];
    }
  }

  lemma KeysReadablePrefix(lines: seq<string>)
    requires |lines| > 0 && KeysReadable(lines)
    ensures KeysReadable(lines[..|lines| - 1])
    ensures var t := Strip(lines[|lines| - 1]); IsDigits(t) ==> |t| <= MaxStrDigits
  {
    var init := lines[..|lines| - 1];
    forall k | 0 <= k < |init| ensures IsDigits(Strip(init[k])) ==> |Strip(init[k])| <= MaxStrDigits {
      assert init[k] == lines[k];
    }
  }

  /** In question mode, the text grows by exactly `TextOf` of the lines read. */
  lemma {:induction false} QuestionPhase(p: Parser, lines: seq<string>)
    requires Valid(p) && !p.failed && p.readingQuestion && |p.objects| > 0
    requires MarkerFree(lines)
    ensures Fold(p, lines) == SetCurrent(p, Current(p).(text := Current(p).text + TextOf(lines)))
    decreases |lines|
  {
    var q := Current(p);
    if lines == [] {
      assert q.(text := q.text + TextOf(lines)) == q;
      SetCurrentSame(p);
    } else {
      var init, last := lines[..|lines| - 1], lines[|lines| - 1];
      assert lines == init + [last];
      MarkerFreePrefix(lines);
      QuestionPhase(p, init);
      FoldSnoc(p, init, last);
      QuestionLineOnCurrent(p, q.(text := q.text + TextOf(init)), last);
      QuestionTextExtend(q, init, last);
    }
  }

  /** What one question-mode line `t` does to the question being filled in. */
  function QuestionLine(q: Question, t: string): Question {
    if IsSkipped(t) then q else q.(text := q.text + t + " ")
  }

  lemma QuestionLineOnCurrent(p: Parser, q1: Question, last: string)
    requires Valid(p) && !p.failed && p.readingQuestion && |p.objects| > 0
    requires !IsMarker(Strip(last))
    ensures Step(SetCurrent(p, q1), last) == SetCurrent(p, QuestionLine(q1, Strip(last)))
  {
    StepQuestionLine(SetCurrent(p, q1), last);
    SetCurrentTwice(p, q1, QuestionLine(q1, Strip(last)));
  }

  /** One more question-mode line extends `TextOf` as `QuestionLine` does. */
  lemma QuestionTextExtend(q: Question, init: seq<string>, last: string)
    ensures QuestionLine(q.(text := q.text + TextOf(init)), Strip(last))
         == q.(text := q.text + TextOf(init + [last]))
  {
    var lines := init + [last];
    assert lines[..|lines| - 1] == init && lines[|lines| - 1] == last;
    var t := Strip(last);
    if !IsSkipped(t) {
      assert q.text + TextOf(init) + t + " " == q.text + TextOf(lines);
    }
  }

  /** In answer mode, the options grow by `AnswersOf` of the lines read and the
      correct index becomes `KeyOf` of them. */
  lemma {:induction false} AnswerPhase(p: Parser, lines: seq<string>)
    requires Valid(p) && !p.failed && !p.readingQuestion && p.readingAnswers && |p.objects| > 0
    requires MarkerFree(lines) && KeysReadable(lines)
    ensures Fold(p, lines) == SetCurrent(p, Current(p).(
      answers := Current(p).answers + AnswersOf(lines),
      correctIndex := KeyOf(lines, Current(p).correctIndex)))
    decreases |lines|
  {
    var q := Current(p);
    if lines == [] {
      assert q.(answers := q.answers + AnswersOf(lines), correctIndex := KeyOf(lines, q.correctIndex)) == q;
      SetCurrentSame(p);
    } else {
      var init, last := lines[..|lines| - 1], lines[|lines| - 1];
      assert lines == init + [last];
      MarkerFreePrefix(lines);
      KeysReadablePrefix(lines);
      AnswerPhase(p, init);
      FoldSnoc(p, init, last);
      AnswerLineOnCurrent(p, q.(answers := q.answers + AnswersOf(init),
                                correctIndex := KeyOf(init, q.correctIndex)), last);
      AnswerLinesExtend(q, init, last);
    }
  }

  /** One more answer-mode line extends `AnswersOf` and `KeyOf` as `AnswerLine` does. */
  lemma AnswerLinesExtend(q: Question, init: seq<string>, last: string)
    ensures AnswerLine(q.(answers := q.answers + AnswersOf(init),
                          correctIndex := KeyOf(init, q.correctIndex)), Strip(last))
         == q.(answers := q.answers + AnswersOf(init + [last]),
               correctIndex := KeyOf(init + [last], q.correctIndex))
  {
    AnswerLinesSnoc(init, last, q.correctIndex);
    AnswerLineAfter(q, AnswersOf(init), KeyOf(init, q.correctIndex), Strip(last),
                    AnswersOf(init + [last]), KeyOf(init + [last], q.correctIndex));
  }

  lemma AnswerLineAfter(q: Question, opts: seq<string>, key: int, t: string,
                        opts2: seq<string>, key2: int)
    requires opts2 == opts + (if IsSkipped(t) || IsDigits(t) then [] else [t])
    requires key2 == if IsDigits(t) then DigitsValue(t) - 1 else key
    ensures AnswerLine(q.(answers := q.answers + opts, correctIndex := key), t)
         == q.(answers := q.answers + opts2, correctIndex := key2)
  {
    if IsSkipped(t) {
      if t != [] {
        assert t[0] == t[..1][0] == '*';
      }
    } else if !IsDigits(t) {
      assert q.answers + opts + [t] == q.answers + opts2;
    }
  }

  /** What one answer-mode line `t` does to the question being filled in. */
  function AnswerLine(q: Question, t: string): Question {
    if IsSkipped(t) then q
    else if IsDigits(t) then q.(correctIndex := DigitsValue(t) - 1)
    else q.(answers := q.answers + [t])
  }

  lemma AnswerLineOnCurrent(p: Parser, q1: Question, last: string)
    requires Valid(p) && !p.failed && !p.readingQuestion && p.readingAnswers && |p.objects| > 0
    requires !IsMarker(Strip(last)) && (IsDigits(Strip(last)) ==> |Strip(last)| <= MaxStrDigits)
    ensures Step(SetCurrent(p, q1), last) == SetCurrent(p, AnswerLine(q1, Strip(last)))
  {
    StepAnswerLine(SetCurrent(p, q1), last);
    SetCurrentTwice(p, q1, AnswerLine(q1, Strip(last)));
  }

  /** `AnswersOf` and `KeyOf` read one more line at the end. */
  lemma AnswerLinesSnoc(init: seq<string>, last: string, d: int)
    ensures var t := Strip(last);
            AnswersOf(init + [last])
            == AnswersOf(init) + (if IsSkipped(t) || IsDigits(t) then [] else [t])
    ensures var t := Strip(last);
            KeyOf(init + [last], d) == if IsDigits(t) then DigitsValue(t) - 1 else KeyOf(init, d)
  {
    var lines := init + [last];
    assert lines[..|lines| - 1] == init && lines[|lines| - 1] == last;
  }

  /** One `@Q ... @A ... @E` block of a bank file. */
  datatype Block = Block(textLines: seq<string>, answerLines: seq<string>)

  /** No stray marker inside the block, and every key short enough for `int`. */
  predicate WellFormed(b: Block) {
    MarkerFree(b.textLines) && MarkerFree(b.answerLines) && KeysReadable(b.answerLines)
  }

  function BlockLines(b: Block): seq<string> {
    ["@Q"] + b.textLines + ["@A"] + b.answerLines + ["@E"]
  }

  /** The question a block describes, stated without the loop. */
  function BlockQuestion(b: Block): Question {
    Question(TextOf(b.textLines), AnswersOf(b.answerLines), KeyOf(b.answerLines, -1))
  }

  lemma StepMarkers(p: Parser)
    requires Valid(p) && !p.failed
    ensures Step(p, "@Q") == p.(readingQuestion := true, objects := p.objects + [Fresh])
    ensures Step(p, "@A") == p.(readingQuestion := false, readingAnswers := true)
    ensures Step(p, "@E") == p.(readingAnswers := false, list := p.list + [|p.objects|])
  {
    StripTrimmed("@Q");
    StripTrimmed("@A");
    StripTrimmed("@E");
  }

  /** `@Q` and the question lines: a new object whose text is `TextOf` them. */
  lemma OpenBlock(p: Parser, T: seq<string>)
    requires Valid(p) && !p.failed && MarkerFree(T)
    ensures Fold(p, ["@Q"] + T) ==
      p.(readingQuestion := true, objects := p.objects + [Fresh.(text := TextOf(T))])
  {
    var q2 := Fresh.(text := TextOf(T));
    var p1 := p.(readingQuestion := true, objects := p.objects + [Fresh]);
    var p2 := p.(readingQuestion := true, objects := p.objects + [q2]);
    assert Step(p, "@Q") == p1 by {
      StepMarkers(p);
    }
    assert Fold(p1, T) == p2 by {
      assert Current(p1) == Fresh;
      QuestionPhase(p1, T);
      assert Fresh.(text := Fresh.text + TextOf(T)) == q2;
      assert (p.objects + [Fresh])[..|p.objects|] == p.objects;
      assert SetCurrent(p1, q2) == p2;
    }
    assert Fold(p, ["@Q"] + T) == Fold(p1, T) by {
      FoldAppend(p, ["@Q"], T);
    }
  }

  /** `@A`, the answer lines and `@E`: the current object gets `AnswersOf` and
      `KeyOf` them and is appended; both modes end off. */
  lemma CloseBlock(p: Parser, q: Question, A: seq<string>)
    requires Valid(p) && !p.failed && p.readingQuestion && |p.objects| > 0 && Current(p) == q
    requires MarkerFree(A) && KeysReadable(A)
    ensures Fold(p, ["@A"] + A + ["@E"]) ==
      Parser(p.objects[..|p.objects| - 1] + [q.(answers := q.answers + AnswersOf(A), correctIndex := KeyOf(A, q.correctIndex))],
             p.list + [|p.objects|], false, false, false)
  {
    var q4 := q.(answers := q.answers + AnswersOf(A), correctIndex := KeyOf(A, q.correctIndex));
    var p3 := p.(readingQuestion := false, readingAnswers := true);
    var p4 := p3.(objects := p.objects[..|p.objects| - 1] + [q4]);
    assert Step(p, "@A") == p3 by {
      StepMarkers(p);
    }
    assert Fold(p3, A) == p4 by {
      AnswerPhase(p3, A);
    }
    assert Step(p4, "@E") == p4.(readingAnswers := false, list := p.list + [|p.objects|]) by {
      StepMarkers(p4);
    }
    assert Fold(p, ["@A"] + A + ["@E"]) == Step(p4, "@E") by {
      FoldAppend(p, ["@A"], A);
      FoldSnoc(p, ["@A"] + A, "@E");
    }
  }

  lemma BlockSplit(p: Parser, b: Block)
    requires Valid(p)
    ensures Fold(p, BlockLines(b)) ==
            Fold(Fold(p, ["@Q"] + b.textLines), ["@A"] + b.answerLines + ["@E"])
  {
    assert BlockLines(b) == (["@Q"] + b.textLines) + (["@A"] + b.answerLines + ["@E"]);
    FoldAppend(p, ["@Q"] + b.textLines, ["@A"] + b.answerLines + ["@E"]);
  }

  /** A block read from any state that has not raised appends one new question,
      equal to `BlockQuestion`, and leaves both modes off. */
  lemma BlockParse(p: Parser, b: Block)
    requires Valid(p) && !p.failed && WellFormed(b)
    ensures Fold(p, BlockLines(b)) ==
      Parser(p.objects + [BlockQuestion(b)], p.list + [|p.objects| + 1], false, false, false)
  {
    var T, A := b.textLines, b.answerLines;
    var q2 := Fresh.(text := TextOf(T));
    var p2 := p.(readingQuestion := true, objects := p.objects + [q2]);
    BlockSplit(p, b);
    OpenBlock(p, T);
    assert Current(p2) == q2;
    CloseBlock(p2, q2, A);
    assert q2.(answers := q2.answers + AnswersOf(A), correctIndex := KeyOf(A, q2.correctIndex))
        == BlockQuestion(b);
    assert p2.objects[..|p2.objects| - 1] == p.objects;
  }

  function BankLines(bs: seq<Block>): seq<string> {
    if bs == [] then [] else BankLines(bs[..|bs| - 1]) + BlockLines(bs[|bs| - 1])
  }

  /** The parser state after a whole well-formed bank: one object per block, the
      list referring to each once, in order, and both modes off. */
  function BankState(bs: seq<Block>): (r: Parser)
    ensures Valid(r) && |r.objects| == |r.list| == |bs|
  {
    Parser(seq(|bs|, k requires 0 <= k < |bs| => BlockQuestion(bs[k])),
           seq(|bs|, k requires 0 <= k < |bs| => k + 1),
           false, false, false)
  }

  lemma BankStateSnoc(bs: seq<Block>)
    requires |bs| > 0
    ensures var s := BankState(bs[..|bs| - 1]);
            BankState(bs) == Parser(s.objects + [BlockQuestion(bs[|bs| - 1])],
                                    s.list + [|s.objects| + 1], false, false, false)
  {
    var init, last := bs[..|bs| - 1], bs[|bs| - 1];
    var s := BankState(init);
    var os := s.objects + [BlockQuestion(last)];
    forall k | 0 <= k < |bs| ensures os[k] == BankState(bs).objects[k] {
      if k < |init| {
        assert init[k] == bs[k];
      }
    }
    assert os == BankState(bs).objects;
    assert s.list + [|s.objects| + 1] == BankState(bs).list;
  }

  /** The layout of `BankLines`, with the marker lines written bare. */
  lemma {:induction false} BankFold(bs: seq<Block>)
    requires forall k :: 0 <= k < |bs| ==> WellFormed(bs[k])
    ensures Parse(BankLines(bs)) == BankState(bs)
    decreases |bs|
  {
    if bs != [] {
      var init, last := bs[..|bs| - 1], bs[|bs| - 1];
      var s := BankState(init);
      assert Parse(BankLines(init)) == s by {
        assert forall k :: 0 <= k < |init| ==> init[k] == bs[k];
        BankFold(init);
      }
      assert Parse(BankLines(bs)) == Fold(s, BlockLines(last)) by {
        FoldAppend(Init, BankLines(init), BlockLines(last));
      }
      assert Fold(s, BlockLines(last)) == BankState(bs) by {
        BlockParse(s, last);
        BankStateSnoc(bs);
      }
    }
  }

  /** A file made of well-formed blocks parses to their questions, in file order,
      each appended exactly once. Only the stripped lines matter, so the file's
      lines may carry any surrounding whitespace, line terminators included. */
  lemma BankParse(bs: seq<Block>, lines: seq<string>)
    requires forall k :: 0 <= k < |bs| ==> WellFormed(bs[k])
    requires SameStripped(lines, BankLines(bs))
    ensures Parse(lines) == BankState(bs)
  {
    BankFold(bs);
    FoldSameStrip(Init, lines, BankLines(bs));
  }

  /** The lines `readlines` returns for such a bank, each ending in a newline,
      parse to the blocks' questions. */
  lemma ReadLinesBank(bs: seq<Block>, lines: seq<string>)
    requires forall k :: 0 <= k < |bs| ==> WellFormed(bs[k])
    requires |lines| == |BankLines(bs)|
    requires forall k :: 0 <= k < |lines| ==> lines[k] == BankLines(bs)[k] + "\n"
    ensures Parse(lines) == BankState(bs)
  {
    forall k | 0 <= k < |lines| ensures Strip(lines[k]) == Strip(BankLines(bs)[k]) {
      StripTrailingSpace(BankLines(bs)[k], '\n');
    }
    BankParse(bs, lines);
  }

  /** Loading a well-formed bank never raises and yields a permutation of the
      blocks' questions. */
  lemma LoadBank(bs: seq<Block>, lines: seq<string>, draws: seq<nat>)
    requires forall k :: 0 <= k < |bs| ==> WellFormed(bs[k])
    requires SameStripped(lines, BankLines(bs))
    requires Shuffle.ValidDraws(draws, |bs|)
    ensures Shuffle.ValidDraws(draws, |Parse(lines).list|)
    ensures !Load(lines, draws).crashed
    ensures multiset(Load(lines, draws).questions)
         == multiset(seq(|bs|, k requires 0 <= k < |bs| => Some(BlockQuestion(bs[k]))))
  {
    var p := Parse(lines);
    assert p == BankState(bs) by {
      BankParse(bs, lines);
    }
    var loaded := Load(lines, draws);
    assert !loaded.crashed && multiset(loaded.questions) == multiset(Resolve(p));
    ResolveBank(bs);
  }

  lemma ResolveBank(bs: seq<Block>)
    ensures Resolve(BankState(bs))
         == seq(|bs|, k requires 0 <= k < |bs| => Some(BlockQuestion(bs[k])))
  {
  }

  // ---------------------------------------------------------------------------
  // Inputs outside the well-formed shape

  /** Text after `@E` with no new `@Q` still lands in the question already
      appended, because the list holds a reference to it. */
  lemma AliasedAfterEnd()
    ensures Resolve(Parse(["@Q", "a", "@E", "b"])) == [Some(Question("a b ", [], -1))]
  {
    var p2 := Parser([Question("a ", [], -1)], [], true, false, false);
    AliasedOpen();
    AliasedClose(p2);
    assert ["@Q", "a"] + ["@E", "b"] == ["@Q", "a", "@E", "b"];
    FoldAppend(Init, ["@Q", "a"], ["@E", "b"]);
  }

  lemma AliasedOpen()
    ensures Parse(["@Q", "a"]) == Parser([Question("a ", [], -1)], [], true, false, false)
  {
    var p1 := Init.(readingQuestion := true, objects := [Fresh]);
    assert Step(Init, "@Q") == p1 by {
      StepMarkers(Init);
    }
    StripTrimmed("a");
    assert !IsSkipped("a") && !IsMarker("a");
    StepQuestionLine(p1, "a");
    assert Fresh.text + "a" + " " == "a ";
    FoldSnoc(Init, ["@Q"], "a");
  }

  lemma AliasedClose(p2: Parser)
    requires p2 == Parser([Question("a ", [], -1)], [], true, false, false)
    ensures Fold(p2, ["@E", "b"]) == Parser([Question("a b ", [], -1)], [1], true, false, false)
  {
    var p3 := p2.(list := [1]);
    assert Step(p2, "@E") == p3 by {
      StepMarkers(p2);
    }
    StripTrimmed("b");
    assert !IsSkipped("b") && !IsMarker("b");
    StepQuestionLine(p3, "b");
    assert "a " + "b" + " " == "a b ";
    FoldSnoc(p2, ["@E"], "b");
  }

  /** A content line read right after `@E`, in question mode, still edits the
      question the list refers to: the appended entry resolves to the edited
      question. */
  lemma LineAfterEnd(p: Parser, raw: string)
    requires Valid(p) && !p.failed && p.readingQuestion && |p.objects| > 0
    requires |p.list| > 0 && p.list[|p.list| - 1] == |p.objects|
    requires !IsSkipped(Strip(raw)) && !IsMarker(Strip(raw))
    ensures Resolve(Step(p, raw))[|p.list| - 1]
         == Some(Current(p).(text := Current(p).text + Strip(raw) + " "))
  {
    StepQuestionLine(p, raw);
  }

  /** An `@E` line while no `@Q` has been read appends `None`. */
  lemma EndWithoutQuestion(p: Parser, raw: string)
    requires Valid(p) && !p.failed && |p.objects| == 0
    requires StartsWith(Strip(raw), "@E")
    ensures Resolve(Step(p, raw)) == Resolve(p) + [None]
  {
  }

  /** A content line in either mode while no `@Q` has been read makes the loop
      raise, since `current_question` is still `None`. */
  lemma ContentWithoutQuestion(p: Parser, raw: string)
    requires Valid(p) && !p.failed && |p.objects| == 0
    requires p.readingQuestion || p.readingAnswers
    requires !IsSkipped(Strip(raw)) && !IsMarker(Strip(raw))
    ensures Step(p, raw).failed
    ensures Step(p, raw).list == p.list
  {
  }

  /** The rest of a marker line is dropped: `@Q` followed by text opens an
      empty question. */
  lemma MarkerTextDropped()
    ensures Parse(["@Q What is 2+2?"]).objects == [Fresh]
  {
    var line := "@Q What is 2+2?";
    StripTrimmed(line);
    assert StartsWith(line, "@Q") by {
      assert line[..2] == "@Q";
    }
  }

  /** `@E` before any `@Q` appends `None`. */
  lemma EndBeforeQuestion()
    ensures Resolve(Parse(["@E"])) == [None]
  {
    StripTrimmed("@E");
  }

  /** An all-digit answer line longer than `MaxStrDigits` makes `int` raise, and
      the loop stops there: nothing after it is read. */
  lemma LongKeyRaises(xs: seq<string>, raw: string, ys: seq<string>)
    requires var p := Parse(xs); !p.failed && !p.readingQuestion && p.readingAnswers
    requires IsDigits(Strip(raw)) && |Strip(raw)| > MaxStrDigits
    ensures Parse(xs + [raw] + ys).failed
    ensures Parse(xs + [raw] + ys).list == Parse(xs).list
  {
    var p := Parse(xs);
    var p1 := p.(failed := true);
    LongKeyStep(p, raw);
    assert Parse(xs + [raw]) == p1 by {
      FoldSnoc(Init, xs, raw);
    }
    assert Fold(p1, ys) == p1;
    FoldAppend(Init, xs + [raw], ys);
  }

  lemma LongKeyStep(p: Parser, raw: string)
    requires Valid(p) && !p.failed && !p.readingQuestion && p.readingAnswers
    requires IsDigits(Strip(raw)) && |Strip(raw)| > MaxStrDigits
    ensures Step(p, raw) == p.(failed := true)
  {
    var t := Strip(raw);
    assert IsDigit(t[0]);
    assert Classify(raw) == Plain(t);
  }

  /** An answer line after `@A` with no `@Q` before it makes the loop raise. */
  lemma AnswerBeforeQuestion()
    ensures Parse(["@A", "x"]).failed
  {
    StripTrimmed("@A");
    StripTrimmed("x");
    FoldAppend(Init, ["@A"], ["x"]);
  }

  /** Answer options that are numbers cannot be written: every all-digit line in
      answer mode is read as the key, and the last one wins. */
  lemma NumericOptionsAreKeys()
    ensures Parse(["@Q", "2+2?", "@A", "3", "4", "2", "@E"]).objects
         == [Question("2+2? ", [], 1)]
  {
    var b := Block(["2+2?"], ["3", "4", "2"]);
    NumericBlockShape(b);
    NumericBlockParts(b);
    BlockParse(Init, b);
  }

  lemma NumericBlockShape(b: Block)
    requires b == Block(["2+2?"], ["3", "4", "2"])
    ensures WellFormed(b)
    ensures BlockLines(b) == ["@Q", "2+2?", "@A", "3", "4", "2", "@E"]
  {
    StripTrimmed("2+2?");
    assert MarkerFree(b.textLines);
    NumericAnswersWellFormed(b.answerLines);
  }

  lemma NumericAnswersWellFormed(A: seq<string>)
    requires A == ["3", "4", "2"]
    ensures MarkerFree(A) && KeysReadable(A)
  {
    StripTrimmed("3");
    StripTrimmed("4");
    StripTrimmed("2");
    assert forall k :: 0 <= k < |A| ==> Strip(A[k]) == A[k] && |A[k]| == 1;
  }

  lemma NumericBlockParts(b: Block)
    requires b == Block(["2+2?"], ["3", "4", "2"])
    ensures TextOf(b.textLines) == "2+2? "
    ensures AnswersOf(b.answerLines) == []
    ensures KeyOf(b.answerLines, -1) == 1
  {
    StripTrimmed("2+2?");
    StripTrimmed("3");
    StripTrimmed("4");
    StripTrimmed("2");
    assert IsDigits("3") && IsDigits("4") && IsDigits("2");
    assert b.answerLines[..2] == ["3", "4"];
    assert b.answerLines[..2][..1] == ["3"];
    assert b.textLines[..0] == [];
    assert AnswersOf(["3"]) == [] by {
      assert ["3"][..0] == [];
    }
    assert AnswersOf(["3", "4"]) == [];
    assert DigitsValue("2") == 2 by {
      assert "2"[..0] == [];
    }
  }
}

=== FILE: quiz_session.dfy ===
/**
  The quiz session of class `Quiz`: the counters `asked_questions`,
  `correct_answers`, `current_question_index` and the flag `time_is_up`,
  driven by the Tk callbacks and the timer thread.

  Each callback is an atomic transition of an immutable `Session`. The timer
  thread's tail is one event, `Expire`. The GUI appears only as what the
  counters depend on. `windows` holds the questions whose dialog is open,
  with a Submit button. `reports` holds one entry per run of `finish_quiz`,
  which is what the message box shows and the log receives. An exception
  raised inside a Tk callback ends that callback, but Tk reports it and the
  application keeps its state, so faults are recorded next to the state
  rather than replacing it.
 */
module QuizSession {

  import opened Wrappers
  import opened QuestionBank
  import Shuffle
  import PyText

  /** The figures `finish_quiz` shows and logs. */
  datatype Report = Report(asked: nat, correct: nat, accuracy: real)

  /** Exceptions a callback can raise. */
  datatype Fault =
    | IndexOutOfRange   // `self.questions[self.current_question_index]` past the end
    | NoneQuestion      // the entry read is `None` (an `@E` before any `@Q`)
    | LoadRaised        // `load_questions_from_file` raised while reading the file

  datatype Session = Session(
    questions: seq<Slot>,
    asked: nat,
    correct: nat,
    index: nat,
    timeIsUp: bool,
    windows: seq<Question>,
    reports: seq<Report>)

  /** The state a callback leaves behind, and what it raised, if anything. */
  datatype Reaction = Reaction(state: Session, fault: Option<Fault>)

  /** `Quiz.__init__`: no questions, counters at zero, time not up. */
  const Initial := Session([], 0, 0, 0, false, [], [])

  // ---------------------------------------------------------------------------
  // Finishing

  /** The accuracy percentage of `finish_quiz`, as an exact rational. */
  function Accuracy(asked: nat, correct: nat): (r: real)
    ensures asked == 0 ==> r == 0.0
    ensures asked > 0 ==> r * asked as real == 100.0 * correct as real
  {
    if asked > 0 then correct as real / asked as real * 100.0 else 0.0
  }

  /** With at most as many correct answers as answers, accuracy is a percentage;
      it is 100 exactly when every answer was correct and 0 exactly when none was. */
  lemma AccuracyBounds(asked: nat, correct: nat)
    requires correct <= asked
    ensures 0.0 <= Accuracy(asked, correct) <= 100.0
    ensures Accuracy(asked, correct) == 100.0 <==> asked > 0 && correct == asked
    ensures Accuracy(asked, correct) == 0.0 <==> correct == 0
  {
    if asked > 0 {
      FractionBounds(correct as real, asked as real);
    }
  }

  /** A share `c / a` of a positive whole `a` lies in [0, 1], and is 1 only for the whole. */
  lemma FractionBounds(c: real, a: real)
    requires 0.0 <= c <= a && a > 0.0
    ensures 0.0 <= c / a <= 1.0
    ensures c / a == 1.0 <==> c == a
  {
    var f := c / a;
    assert f * a == c;
    assert (f - 1.0) * a == c - a;
    ScaleSign(f, a);
    ScaleSign(f - 1.0, a);
  }

  /** Scaling by a positive factor keeps the sign. */
  lemma ScaleSign(x: real, a: real)
    requires a > 0.0
    ensures x < 0.0 <==> x * a < 0.0
    ensures x == 0.0 <==> x * a == 0.0
  {
  }

  /** `finish_quiz`: time is up from now on, and one report of the current
      counters is emitted. Nothing else changes. */
  function Finish(s: Session): (r: Session)
    ensures r.timeIsUp
    ensures |r.reports| == |s.reports| + 1 && r.reports[..|s.reports|] == s.reports
    ensures var rep := r.reports[|s.reports|];
            rep.asked == s.asked && rep.correct == s.correct
            && rep.accuracy == Accuracy(s.asked, s.correct)
            && (s.correct <= s.asked ==> 0.0 <= rep.accuracy <= 100.0)
    ensures r.questions == s.questions && r.windows == s.windows
    ensures r.asked == s.asked && r.correct == s.correct && r.index == s.index
  {
    var r := s.(timeIsUp := true,
                reports := s.reports + [Report(s.asked, s.correct, Accuracy(s.asked, s.correct))]);
    if s.correct <= s.asked then
      AccuracyBounds(s.asked, s.correct);
      r
    else r
  }

  /** The timer thread's tail: finish unless time is already up. */
  function Expire(s: Session): (r: Session)
    ensures r.timeIsUp
    ensures s.timeIsUp ==> r == s
    ensures |r.reports| == |s.reports| + (if s.timeIsUp then 0 else 1)
    ensures r.asked == s.asked && r.correct == s.correct && r.index == s.index
    ensures r.windows == s.windows && r.questions == s.questions
  {
    if !s.timeIsUp then Finish(s) else s
  }

  /** Expiring twice is expiring once, and expiring after a finish does nothing. */
  lemma ExpireOnce(s: Session)
    ensures Expire(Expire(s)) == Expire(s)
    ensures Expire(Finish(s)) == Finish(s)
  {
  }

  // ---------------------------------------------------------------------------
  // Asking and answering

  /** `ask_question`: read the entry at the index, step the index past it, and
      open its dialog. */
  function Ask(s: Session): (r: Reaction)
    ensures r.fault == Some(IndexOutOfRange) <==> s.index >= |s.questions|
    ensures r.fault == Some(IndexOutOfRange) ==> r.state == s
    ensures r.fault.None? <==> s.index < |s.questions| && s.questions[s.index].Some?
    ensures r.fault != Some(IndexOutOfRange) ==> r.state.index == s.index + 1
    ensures r.fault.None? ==> r.state.windows == s.windows + [s.questions[s.index].value]
    ensures r.fault.Some? ==> r.state.windows == s.windows
    ensures r.state.asked == s.asked && r.state.correct == s.correct
    ensures r.state.timeIsUp == s.timeIsUp && r.state.reports == s.reports
    ensures r.state.questions == s.questions
  {
    if s.index >= |s.questions| then Reaction(s, Some(IndexOutOfRange))
    else
      var next := s.(index := s.index + 1);
      match s.questions[s.index]
      case None => Reaction(next, Some(NoneQuestion))
      case Some(q) => Reaction(next.(windows := s.windows + [q]), None)
  }

  /** `handle_answer`: score the answer, then ask the next question while some
      remain and time is not up, and finish otherwise. There is no guard
      against answers arriving after time is up. */
  function HandleAnswer(s: Session, selected: int, correctIndex: int): (r: Reaction)
    ensures r.state.asked == s.asked + 1
    ensures r.state.correct == s.correct + 1 <==> selected == correctIndex
    ensures r.state.correct == s.correct || r.state.correct == s.correct + 1
    ensures r.state.timeIsUp
            <==> s.timeIsUp || s.asked + 1 >= |s.questions|
    ensures |r.state.reports| == |s.reports| + (if r.state.timeIsUp then 1 else 0)
    ensures r.fault == Some(IndexOutOfRange) ==> !r.state.timeIsUp && s.index >= |s.questions|
    ensures r.state.questions == s.questions
  {
    var scored := s.(correct := if selected == correctIndex then s.correct + 1 else s.correct,
                     asked := s.asked + 1);
    if scored.asked < |scored.questions| && !scored.timeIsUp then Ask(scored)
    else Reaction(Finish(scored), None)
  }

  /** Removing the dialog at position `w` (`question_window.destroy()`). */
  function CloseWindow(windows: seq<Question>, w: nat): (r: seq<Question>)
    requires w < |windows|
    ensures |r| == |windows| - 1
    ensures forall k :: 0 <= k < w ==> r[k] == windows[k]
    ensures forall k :: w <= k < |r| ==> r[k] == windows[k + 1]
  {
    windows[..w] + windows[w + 1..]
  }

  /** The Submit button of open dialog `w`, with radio value `selected`
      (-1 when no option was chosen). */
  function Submit(s: Session, w: nat, selected: int): (r: Reaction)
    requires w < |s.windows| && -1 <= selected < |s.windows[w].answers|
    ensures r.state.asked == s.asked + 1
    ensures r.state.correct == s.correct + 1 <==> selected == s.windows[w].correctIndex
    ensures r.state.correct == s.correct || r.state.correct == s.correct + 1
  {
    HandleAnswer(s.(windows := CloseWindow(s.windows, w)), selected, s.windows[w].correctIndex)
  }

  // ---------------------------------------------------------------------------
  // Starting

  /** The part of `start_new_quiz` after the dialogs: reset the counters, clear
      the flag, start the timer and ask the first question. */
  function Restart(s: Session): (r: Reaction)
    ensures r.state.asked == 0 && r.state.correct == 0 && !r.state.timeIsUp
    ensures r.fault == Some(IndexOutOfRange) <==> |s.questions| == 0
    ensures r.fault == Some(NoneQuestion) <==> |s.questions| > 0 && s.questions[0].None?
    ensures r.fault.None? <==> |s.questions| > 0 && s.questions[0].Some?
    ensures r.fault != Some(IndexOutOfRange) ==> r.state.index == 1
    ensures r.fault == Some(IndexOutOfRange)
            ==> r.state == s.(asked := 0, correct := 0, index := 0, timeIsUp := false)
    ensures r.fault.None? ==> r.state.windows == s.windows + [s.questions[0].value]
  {
    Ask(s.(asked := 0, correct := 0, index := 0, timeIsUp := false))
  }

  /** A dialog answer counts as given unless it was cancelled (`None`) or 0. */
  predicate Given(answer: Option<int>) {
    answer.Some? && answer.value != 0
  }

  /** Draws `random.shuffle` can produce for the bank the chosen file yields. */
  predicate DrawsFit(file: Option<seq<string>>, draws: seq<nat>) {
    file.Some? ==> Shuffle.ValidDraws(draws, |Parse(file.value).list|)
  }

  /** `start_new_quiz`. `file` is the chosen file's lines, `None` when the dialog
      was cancelled. `count` and `duration` are the two integer prompts. The
      question list is replaced as soon as a file is chosen. The clamped count is
      never used, so `count` only matters through `Given`. */
  function StartNewQuiz(s: Session, file: Option<seq<string>>, draws: seq<nat>,
                        count: Option<int>, duration: Option<int>): (r: Reaction)
    requires DrawsFit(file, draws)
    ensures file.None? ==> r == Reaction(s, None)
    ensures file.Some? ==> multiset(r.state.questions) == multiset(Resolve(Parse(file.value)))
    ensures file.Some? && !Parse(file.value).failed ==> |r.state.questions| == CountEnds(file.value)
    ensures file.Some? && Parse(file.value).failed
            ==> r == Reaction(s.(questions := Resolve(Parse(file.value))), Some(LoadRaised))
    ensures file.Some? && !Parse(file.value).failed && !(Given(count) && Given(duration))
            ==> r == Reaction(s.(questions := r.state.questions), None)
    ensures file.Some? && !Parse(file.value).failed && Given(count) && Given(duration)
            ==> && r.state.asked == 0 && r.state.correct == 0 && !r.state.timeIsUp
                && |r.state.questions| == CountEnds(file.value)
                && r.state.index == (if CountEnds(file.value) == 0 then 0 else 1)
                && (r.fault == Some(IndexOutOfRange) <==> CountEnds(file.value) == 0)
                && (r.fault == Some(NoneQuestion)
                    <==> CountEnds(file.value) > 0 && r.state.questions[0].None?)
                && (r.fault.None? <==> CountEnds(file.value) > 0 && r.state.questions[0].Some?)
  {
    if file.None? then Reaction(s, None)
    else
      var loaded := Load(file.value, draws);
      var s1 := s.(questions := loaded.questions);
      if loaded.crashed then Reaction(s1, Some(LoadRaised))
      else if !Given(count) || !Given(duration) then Reaction(s1, None)
      else Restart(s1)
  }

  /** Any two non-zero question counts start the same session. */
  lemma CountIgnored(s: Session, file: Option<seq<string>>, draws: seq<nat>,
                     n1: int, n2: int, duration: Option<int>)
    requires DrawsFit(file, draws)
    requires n1 != 0 && n2 != 0
    ensures StartNewQuiz(s, file, draws, Some(n1), duration)
         == StartNewQuiz(s, file, draws, Some(n2), duration)
  {
  }

  // ---------------------------------------------------------------------------
  // Runs of events

  datatype Event =
    | Answer(window: nat, selected: int)   // the Submit button of an open dialog
    | TimeUp                               // a timer thread's tail
    | NewQuiz(file: Option<seq<string>>, draws: seq<nat>,
              count: Option<int>, duration: Option<int>)
                                           // the main window's "Start New Quiz"

  /** A run of dialog and timer events, with no new start pressed. */
  predicate InSession(events: seq<Event>) {
    forall k :: 0 <= k < |events| ==> !events[k].NewQuiz?
  }

  /** A start that gets as far as its first ask on a file with no `@E` line:
      that ask reads past the end of the empty list. */
  predicate EmptyStart(e: Event) {
    && e.NewQuiz? && e.file.Some? && DrawsFit(e.file, e.draws)
    && !Parse(e.file.value).failed && Given(e.count) && Given(e.duration)
    && CountEnds(e.file.value) == 0
  }

  /** One event. A Submit on a dialog that is not open, or with a radio value
      no button has, cannot be clicked and changes nothing; nor do draws that
      `random.shuffle` cannot produce. A start either keeps the counters or
      resets them. */
  function Apply(s: Session, e: Event): (r: Reaction)
    ensures !e.NewQuiz? ==> r.state.questions == s.questions
    ensures !e.NewQuiz? ==> r.state.asked == s.asked || r.state.asked == s.asked + 1
    ensures !e.NewQuiz? ==> r.state.correct == s.correct || r.state.correct == s.correct + 1
    ensures !e.NewQuiz? && r.state.correct == s.correct + 1 ==> r.state.asked == s.asked + 1
    ensures e.NewQuiz? ==>
              || (&& r.state.asked == s.asked && r.state.correct == s.correct
                  && r.state.index == s.index && r.state.timeIsUp == s.timeIsUp)
              || (r.state.asked == 0 && r.state.correct == 0 && r.state.index <= 1
                  && !r.state.timeIsUp)
    ensures e.NewQuiz? ==> (r.fault == Some(IndexOutOfRange) <==> EmptyStart(e))
  {
    match e
    case TimeUp => Reaction(Expire(s), None)
    case Answer(w, sel) =>
      if w < |s.windows| && -1 <= sel < |s.windows[w].answers| then Submit(s, w, sel)
      else Reaction(s, None)
    case NewQuiz(file, draws, count, duration) =>
      if DrawsFit(file, draws) then StartNewQuiz(s, file, draws, count, duration)
      else Reaction(s, None)
  }

  /** The state after a run of events, and what was raised on the way. */
  datatype Trace = Trace(state: Session, faults: seq<Fault>)

  function Run(s: Session, events: seq<Event>): (t: Trace)
    ensures InSession(events) ==> t.state.questions == s.questions
    decreases |events|
  {
    if events == [] then Trace(s, [])
    else
      var r := Apply(s, events[0]);
      var rest := Run(r.state, events[1..]);
      Trace(rest.state, (if r.fault.Some? then [r.fault.value] else []) + rest.faults)
  }

  /** Never more correct answers than answers; within a session the counters
      only grow. */
  lemma {:induction false} CountersOrdered(s: Session, events: seq<Event>)
    requires s.correct <= s.asked
    ensures var t := Run(s, events).state; t.correct <= t.asked
    ensures var t := Run(s, events).state;
            InSession(events) ==> s.asked <= t.asked && s.correct <= t.correct
    decreases |events|
  {
    if events != [] {
      InSessionTail(events);
      CountersOrdered(Apply(s, events[0]).state, events[1..]);
    }
  }

  lemma InSessionTail(events: seq<Event>)
    requires events != []
    ensures InSession(events) <==> !events[0].NewQuiz? && InSession(events[1..])
  {
    if !events[0].NewQuiz? && InSession(events[1..]) {
      forall k | 0 <= k < |events| ensures !events[k].NewQuiz? {
        if k > 0 {
          assert events[k] == events[1..][k - 1];
        }
      }
    }
  }

  /** Some event of the run is an `EmptyStart`. */
  predicate HasEmptyStart(events: seq<Event>) {
    exists k :: 0 <= k < |events| && EmptyStart(events[k])
  }

  lemma HasEmptyStartTail(events: seq<Event>)
    requires events != []
    ensures HasEmptyStart(events) <==> EmptyStart(events[0]) || HasEmptyStart(events[1..])
  {
    if HasEmptyStart(events) {
      var k :| 0 <= k < |events| && EmptyStart(events[k]);
      if k > 0 {
        assert events[1..][k - 1] == events[k];
      }
    }
    if HasEmptyStart(events[1..]) {
      var j :| 0 <= j < |events| - 1 && EmptyStart(events[1..][j]);
      assert events[j + 1] == events[1..][j];
    }
  }

  // ---------------------------------------------------------------------------
  // The session invariant

  /** What every state of a session keeps, whatever the bank holds and whatever
      dialogs are still open, stale ones from an earlier session included: while
      time is not up the index is one past the answers, and the index never
      passes the end. */
  predicate Inv(s: Session) {
    && s.correct <= s.asked
    && s.index <= |s.questions|
    && (!s.timeIsUp ==> s.index == s.asked + 1)
  }

  /** Every entry of the bank is a question. */
  predicate Complete(questions: seq<Slot>) {
    forall k :: 0 <= k < |questions| ==> questions[k].Some?
  }

  /** The stronger invariant of a bank without `None` and no stale dialog: the
      open dialog, if any, is the question last read. */
  predicate Ready(s: Session) {
    && Inv(s)
    && Complete(s.questions)
    && s.asked <= s.index <= s.asked + 1
    && |s.windows| == s.index - s.asked
    && (|s.windows| == 1 ==> s.windows[0] == s.questions[s.index - 1].value)
  }

  /** Starting on a non-empty bank establishes `Inv` and does not read past the
      end, whatever dialogs are left open. */
  lemma RestartInv(s: Session)
    requires |s.questions| > 0
    ensures Inv(Restart(s).state) && !Restart(s).state.timeIsUp
    ensures Restart(s).fault != Some(IndexOutOfRange)
  {
  }

  /** Starting on a non-empty bank with no dialog left open establishes `Ready`:
      the first question is on screen and the index is 1. */
  lemma RestartReady(s: Session)
    requires |s.questions| > 0 && Complete(s.questions) && s.windows == []
    ensures Restart(s).fault.None?
    ensures Ready(Restart(s).state) && !Restart(s).state.timeIsUp
  {
  }

  /** A dialog left open when time ran out survives a restart: the new session
      has two dialogs open, and `Inv` still holds. */
  lemma StaleDialogSurvives(s: Session)
    requires Ready(s) && !s.timeIsUp
    ensures var t := Restart(Expire(s)).state;
            |t.windows| == 2 && t.windows[0] == s.windows[0] && Inv(t)
  {
    RestartInv(Expire(s));
  }

  /** Every dialog or timer event keeps `Inv`, and none reads past the end of
      the list. */
  lemma ApplyInv(s: Session, e: Event)
    requires Inv(s)
    ensures !e.NewQuiz? ==> Inv(Apply(s, e).state)
    ensures !e.NewQuiz? ==> Apply(s, e).fault != Some(IndexOutOfRange)
  {
    if e.Answer? && e.window < |s.windows| && -1 <= e.selected < |s.windows[e.window].answers| {
      var s1 := s.(windows := CloseWindow(s.windows, e.window));
      var r := HandleAnswer(s1, e.selected, s.windows[e.window].correctIndex);
      assert Apply(s, e) == r;
    }
  }

  /** A session started on a non-empty bank keeps `Inv` whatever dialogs are
      open, as long as no new start is pressed. Over any run, starts included,
      the list is read past its end exactly when some start has an empty bank. */
  lemma NoReadPastEnd(s: Session, events: seq<Event>)
    requires |s.questions| > 0
    ensures InSession(events) ==> Inv(Run(Restart(s).state, events).state)
    ensures IndexOutOfRange in Run(Restart(s).state, events).faults <==> HasEmptyStart(events)
  {
    RestartInv(s);
    RunInv(Restart(s).state, events);
    RunBounded(Restart(s).state, events);
  }

  /** On a bank without `None`, every dialog or timer event keeps `Ready` and
      raises nothing. */
  lemma ApplyReady(s: Session, e: Event)
    requires Ready(s)
    ensures !e.NewQuiz? ==> Ready(Apply(s, e).state)
    ensures !e.NewQuiz? ==> Apply(s, e).fault.None?
  {
    ApplyInv(s, e);
  }

  /** Over any run of dialog and timer events, `Inv` holds and the index stays
      in bounds. */
  lemma {:induction false} RunInv(s: Session, events: seq<Event>)
    requires Inv(s)
    ensures InSession(events) ==> Inv(Run(s, events).state)
    ensures InSession(events) ==> IndexOutOfRange !in Run(s, events).faults
    decreases |events|
  {
    if events != [] && InSession(events) {
      InSessionTail(events);
      ApplyInv(s, events[0]);
      RunInv(Apply(s, events[0]).state, events[1..]);
    }
  }

  /** Over any run of dialog and timer events on a bank without `None`, nothing
      is raised. */
  lemma {:induction false} RunReady(s: Session, events: seq<Event>)
    requires Ready(s)
    ensures InSession(events) ==> Ready(Run(s, events).state)
    ensures InSession(events) ==> Run(s, events).faults == []
    decreases |events|
  {
    if events != [] && InSession(events) {
      InSessionTail(events);
      ApplyReady(s, events[0]);
      RunReady(Apply(s, events[0]).state, events[1..]);
    }
  }

  // ---------------------------------------------------------------------------
  // Starts pressed during a session

  /** What every state keeps, starts included: while time is not up, the index
      is at most one past the answers. A start whose prompt is cancelled, or
      whose load raises, replaces the list but keeps the index, so the index
      may pass the end of the new list; `ask_question` is still never reached
      with it, because `handle_answer` asks only while answers < length. */
  predicate Bounded(s: Session) {
    && s.correct <= s.asked
    && (!s.timeIsUp ==> s.index <= s.asked + 1)
  }

  /** `Bounded` holds from launch on, and `Inv` implies it. */
  lemma BoundedFrom(s: Session)
    ensures Bounded(Initial)
    ensures Inv(s) ==> Bounded(s)
  {
  }

  /** Every event keeps `Bounded`, and an event reads past the end of the list
      exactly when it is a start on an empty bank. */
  lemma ApplyBounded(s: Session, e: Event)
    requires Bounded(s)
    ensures Bounded(Apply(s, e).state)
    ensures Apply(s, e).fault == Some(IndexOutOfRange) <==> EmptyStart(e)
  {
    if e.Answer? && e.window < |s.windows| && -1 <= e.selected < |s.windows[e.window].answers| {
      var s1 := s.(windows := CloseWindow(s.windows, e.window));
      var r := HandleAnswer(s1, e.selected, s.windows[e.window].correctIndex);
      assert Apply(s, e) == r;
    }
  }

  /** Over any run of events, starts included, the list is read past its end
      exactly when some start of the run has an empty bank. */
  lemma {:induction false} RunBounded(s: Session, events: seq<Event>)
    requires Bounded(s)
    ensures Bounded(Run(s, events).state)
    ensures IndexOutOfRange in Run(s, events).faults <==> HasEmptyStart(events)
    decreases |events|
  {
    if events != [] {
      var r := Apply(s, events[0]);
      ApplyBounded(s, events[0]);
      RunBounded(r.state, events[1..]);
      HasEmptyStartTail(events);
    }
  }

  /** From launch, whatever the user presses and whenever the timers fire, the
      only IndexError is the first ask of a start on a file with no `@E` line. */
  lemma IndexErrorOnlyOnEmptyStart(events: seq<Event>)
    ensures IndexOutOfRange in Run(Initial, events).faults <==> HasEmptyStart(events)
  {
    BoundedFrom(Initial);
    RunBounded(Initial, events);
  }

  /** `Inv` alone does not survive a start: a cancelled prompt replaces a list of
      three with a list of one and leaves the index at 2. */
  lemma CancelledStartBreaksInv(q: Question)
    ensures var s := Session([Some(q), Some(q), Some(q)], 1, 0, 2, false, [q], []);
            var t := Apply(s, NewQuiz(Some(["@Q", "y", "@A", "@E"]), [0], None, None)).state;
            Inv(s) && !Inv(t) && Bounded(t)
  {
    var s := Session([Some(q), Some(q), Some(q)], 1, 0, 2, false, [q], []);
    var file := ["@Q", "y", "@A", "@E"];
    OneQuestionFile(file);
    CancelledPrompt(s, file, [0], None);
  }

  /** A start whose count prompt is cancelled replaces the list with the loaded
      one and changes nothing else. */
  lemma CancelledPrompt(s: Session, file: seq<string>, draws: seq<nat>, duration: Option<int>)
    requires DrawsFit(Some(file), draws) && !Parse(file).failed
    ensures var t := Apply(s, NewQuiz(Some(file), draws, None, duration));
            t.fault.None? && t.state == s.(questions := t.state.questions)
            && multiset(t.state.questions) == multiset(Resolve(Parse(file)))
            && |t.state.questions| == CountEnds(file)
  {
  }

  /** A file of one question block parses to one entry, without raising. */
  lemma OneQuestionFile(file: seq<string>)
    requires file == ["@Q", "y", "@A", "@E"]
    ensures !Parse(file).failed && CountEnds(file) == 1
    ensures Shuffle.ValidDraws([0], |Parse(file).list|)
  {
    var b := Block(["y"], []);
    assert BankLines([b]) == file by {
      assert [b][..0] == [];
    }
    assert WellFormed(b) by {
      PyText.StripTrimmed("y");
    }
    BankFold([b]);
    EndCount(Init, file);
  }

  // ---------------------------------------------------------------------------
  // Completion and expiry

  /** Answering dialog 0 with each selection in turn. */
  function Answers(selections: seq<int>): (es: seq<Event>)
    ensures |es| == |selections|
    ensures forall k :: 0 <= k < |es| ==> es[k] == Answer(0, selections[k])
  {
    seq(|selections|, k requires 0 <= k < |selections| => Answer(0, selections[k]))
  }

  /** Answering every remaining question before time is up finishes exactly once,
      with every question asked; the timer's tail afterwards changes nothing. */
  lemma {:induction false} NormalCompletion(s: Session, selections: seq<int>)
    requires Ready(s) && !s.timeIsUp
    requires |selections| == |s.questions| - s.asked
    requires forall k :: 0 <= k < |selections| ==>
               -1 <= selections[k] < |s.questions[s.asked + k].value.answers|
    ensures var t := Run(s, Answers(selections)).state;
            t.timeIsUp && t.asked == |s.questions|
            && |t.reports| == |s.reports| + 1
            && Expire(t) == t
    decreases |selections|
  {
    var es := Answers(selections);
    var e := es[0];
    assert e == Answer(0, selections[0]);
    var r := Apply(s, e);
    assert s.windows[0] == s.questions[s.asked].value;
    ApplyReady(s, e);
    if |selections| == 1 {
      assert es[1..] == [];
    } else {
      var rest := selections[1..];
      assert es[1..] == Answers(rest);
      assert !r.state.timeIsUp && r.state.asked == s.asked + 1;
      forall k | 0 <= k < |rest|
        ensures -1 <= rest[k] < |r.state.questions[r.state.asked + k].value.answers|
      {
        assert rest[k] == selections[k + 1];
      }
      NormalCompletion(r.state, rest);
    }
  }

  /** Time running out with questions left finishes with fewer answers than
      questions, and leaves the current dialog open. */
  lemma EarlyExpiry(s: Session)
    requires Ready(s) && !s.timeIsUp
    ensures var t := Apply(s, TimeUp).state;
            t.timeIsUp && t.asked < |s.questions| && |t.windows| == 1
            && |t.reports| == |s.reports| + 1
  {
  }

  /** An answer submitted after time is up still counts, and finishes again. */
  lemma LateAnswerCounts(s: Session, selected: int)
    requires s.timeIsUp && |s.windows| > 0
    requires -1 <= selected < |s.windows[0].answers|
    ensures var t := Apply(s, Answer(0, selected)).state;
            t.asked == s.asked + 1
            && (t.correct == s.correct + 1 <==> selected == s.windows[0].correctIndex)
            && |t.reports| == |s.reports| + 1
  {
  }

  /** The last answer and the timer's tail race. Answer first: one finish.
      Timer first: the late answer finishes a second time. */
  lemma FinalAnswerRace(s: Session, selected: int)
    requires Ready(s) && !s.timeIsUp && s.asked + 1 == |s.questions|
    requires -1 <= selected < |s.windows[0].answers|
    ensures |Run(s, [Answer(0, selected), TimeUp]).state.reports| == |s.reports| + 1
    ensures |Run(s, [TimeUp, Answer(0, selected)]).state.reports| == |s.reports| + 2
  {
    var ans, tick := Answer(0, selected), TimeUp;
    var a := Apply(s, ans).state;
    assert a.timeIsUp && |a.reports| == |s.reports| + 1;
    assert Run(a, [tick]).state == Expire(a) by {
      assert [tick][1..] == [];
    }
    assert Run(s, [ans, tick]).state == Run(a, [tick]).state by {
      assert [ans, tick][1..] == [tick];
    }
    var e := Expire(s);
    assert e.windows == s.windows && |e.reports| == |s.reports| + 1;
    LateAnswerCounts(e, selected);
    assert Run(e, [ans]).state == Apply(e, ans).state by {
      assert [ans][1..] == [];
    }
    assert Run(s, [tick, ans]).state == Run(e, [ans]).state by {
      assert [tick, ans][1..] == [ans];
    }
  }
}

=== FILE: shuffle.dfy ===
/**
  `random.shuffle(x)` as CPython implements it: a Fisher-Yates pass from the
  last position down to 1 that swaps position `i` with a position
  `j = randbelow(i + 1)`. The random source is a parameter: `draws[i]` is the
  value `randbelow(i + 1)` returned when the pass reached position `i`.
 */
module Shuffle {

  /** Draws a pass over `n` elements can receive: one per position, each in [0, i]. */
  predicate ValidDraws(draws: seq<nat>, n: nat) {
    |draws| == n && forall i :: 0 <= i < n ==> draws[i] <= i
  }

  /** `x[i], x[j] = x[j], x[i]`. */
  function Swap<T>(a: seq<T>, i: nat, j: nat): (r: seq<T>)
    requires i < |a| && j < |a|
    ensures |r| == |a| && r[i] == a[j] && r[j] == a[i]
    ensures forall k :: 0 <= k < |a| && k != i && k != j ==> r[k] == a[k]
  {
    a[i := a[j]][j := a[i]]
  }

  lemma SwapPermutes<T>(a: seq<T>, i: nat, j: nat)
    requires i < |a| && j < |a|
    ensures multiset(Swap(a, i, j)) == multiset(a)
  {
  }

  /** The pass over positions `i`, `i - 1`, ..., 1. */
  function ShuffleDown<T>(a: seq<T>, draws: seq<nat>, i: nat): (r: seq<T>)
    requires ValidDraws(draws, |a|) && i < |a|
    ensures |r| == |a|
    decreases i
  {
    if i == 0 then a else ShuffleDown(Swap(a, i, draws[i]), draws, i - 1)
  }

  /** Every pass only swaps, so it keeps the multiset of entries. */
  lemma {:induction false} ShuffleDownPermutes<T>(a: seq<T>, draws: seq<nat>, i: nat)
    requires ValidDraws(draws, |a|) && i < |a|
    ensures multiset(ShuffleDown(a, draws, i)) == multiset(a)
    decreases i
  {
    if i > 0 {
      SwapPermutes(a, i, draws[i]);
      ShuffleDownPermutes(Swap(a, i, draws[i]), draws, i - 1);
    }
  }

  /** The shuffled list: a permutation of the input, whatever the draws were. */
  function Shuffle<T>(a: seq<T>, draws: seq<nat>): (r: seq<T>)
    requires ValidDraws(draws, |a|)
    ensures |r| == |a|
    ensures multiset(r) == multiset(a)
  {
    if |a| == 0 then a
    else
      ShuffleDownPermutes(a, draws, |a| - 1);
      ShuffleDown(a, draws, |a| - 1)
  }

  /** The pass down from `i` leaves every position above `i` alone. */
  lemma {:induction false} ShuffleDownFrame<T>(a: seq<T>, draws: seq<nat>, i: nat)
    requires ValidDraws(draws, |a|) && i < |a|
    ensures forall k :: i < k < |a| ==> ShuffleDown(a, draws, i)[k] == a[k]
    decreases i
  {
    if i > 0 {
      ShuffleDownFrame(Swap(a, i, draws[i]), draws, i - 1);
    }
  }

  /** The last position of the shuffled list holds the entry the first draw
      picked, and it is never moved again. */
  lemma ShuffleLast<T>(a: seq<T>, draws: seq<nat>)
    requires ValidDraws(draws, |a|) && |a| > 0
    ensures Shuffle(a, draws)[|a| - 1] == a[draws[|a| - 1]]
  {
    var n := |a|;
    if n > 1 {
      var b := Swap(a, n - 1, draws[n - 1]);
      ShuffleDownFrame(b, draws, n - 2);
      assert Shuffle(a, draws) == ShuffleDown(b, draws, n - 2);
    }
  }
}

=== FILE: wrappers.dfy ===
/** The optional value used wherever the program stores `None` or an object. */
module Wrappers {

  datatype Option<+T> = None | Some(value: T)
}
